=== FILE: README.md ===
# WhatsAppAgent receipt webhook, modelled in Dafny

WhatsAppAgent is a Flask service that receives WhatsApp group messages from
the Evolution API gateway. A message carrying media is meant to be
downloaded, encrypted and stored as a receipt row in SQLite, then enqueued
for forwarding to Telegram. A text message is meant to be treated as a
customer-name query: it is fuzzily matched against the receipts not yet
forwarded, and the best match is forwarded and marked. As written, the
download call and the match call both raise, so neither path completes (see
"## Findings"). This project models that core, both as written and as
intended:

- `json.dfy` (module `Json`): decoded JSON values with Python truthiness,
  `dict.get` and left-grouped `a or b or c` chains.
- `config.dfy` (module `Config`): the `MONITORED_GROUPS` setting. It is
  split on commas, each piece is stripped, and blank pieces are dropped.
  The module then rebinds the name to a literal list.
- `store.dfy` (module `Store`): the `receipts`, `queries` and `events`
  tables as an immutable value, with the six database operations as state
  transitions. Binding a value sqlite3 rejects, or reusing a primary key,
  is an error result.
- `matcher.dfy` (module `Matcher`): `find_match_in_db`, the strict-argmax
  scan over the unforwarded rows, against an independent specification
  (`IsBestMatch`).
- `routing.dfy` (module `Routing`): the pure decision part of
  `whatsapp_webhook`. It covers the secret check, payload extraction, the
  group filter, and the choice of store, query, nothing, or an uncaught
  error.
- `webhook.dfy` (module `Webhook`): the try block as a plan of collaborator
  calls run in order. Which calls raise is an input. The first raise runs
  the `except` handler, which logs `webhook_error`, notifies the admin and
  answers 500.

Inputs the handler draws from outside the request are parameters of
`Webhook.Env`:
- the uuid4 id and the `utcnow` timestamp;
- the path the encrypted file is saved under;
- the rows the matcher fetches, in SQLite's order;
- the similarity function;
- the set of calls that raise.

The handler keeps no cache of pending images, recognises no claim
keywords, filters no base64 payloads, applies no score threshold and lists
the unforwarded receipts in no particular order. The model has none of
these either: any positive score is a match, and the order in which rows
are fetched is an input.

Each row is stored as SQLite keeps it. The name, image path and group
columns of `receipts`, and the name and group columns of `queries`, are
TEXT columns. An integer bound to one of them is stored as its decimal text,
so `True` becomes "1" and `5` becomes "5".

## Model

| member | source | states |
|---|---|---|
| Json.OrChain | app/main.py:80 | a Python `or` chain yields the first truthy operand, or the last operand when none is truthy; the result is truthy exactly when some operand is |
| Config.TrimLeftSpec | app/config.py:22 | stripping the front keeps a suffix that does not start with whitespace and drops only whitespace |
| Config.TrimRightSpec | app/config.py:22 | stripping the back keeps a prefix that does not end in whitespace and drops only whitespace |
| Config.Strip | app/config.py:22 | `str.strip()` leaves no whitespace at either end and never lengthens the text |
| Config.StripIsTrim | app/config.py:22 | the stripped text is a middle slice of the input, and everything cut from either side is whitespace |
| Config.StripCommaFree | app/config.py:22 | stripping introduces no comma |
| Config.Split | app/config.py:22 | `split(",")` always yields at least one piece |
| Config.SplitCommaFree | app/config.py:22 | no piece of the split contains the separator |
| Config.JoinSplit | app/config.py:22 | joining the pieces with commas gives back the original text |
| Config.SplitJoin | app/config.py:22 | splitting comma-free pieces joined by commas gives back exactly those pieces |
| Config.SplitPrefix | app/config.py:22 | a comma-free prefix becomes part of the first piece of what follows it |
| Config.SplitConcat | app/config.py:22 | the pieces of `a,b` are the pieces of `a` followed by the pieces of `b` |
| Config.KeepNonBlank | app/config.py:22 | every kept entry is non-blank and stripped |
| Config.KeepComplete | app/config.py:22 | no piece whose stripped text is non-blank is dropped |
| Config.KeepCommaFree | app/config.py:22 | comma-free pieces give comma-free entries |
| Config.KeepSound | app/config.py:22 | every kept entry is the stripped text of some piece |
| Config.KeepConcat | app/config.py:22 | the filter keeps order: filtering a concatenation concatenates the filtered parts |
| Config.ParseGroups | app/config.py:21-22 | each parsed group is non-blank, stripped and comma-free, and every non-blank stripped piece is a group |
| Config.ParseEmpty | app/config.py:21-22 | an unset or empty setting gives no groups |
| Config.ParseSound | app/config.py:21-22 | every group is the stripped text of some comma-separated piece |
| Config.ParseConcat | app/config.py:21-22 | the groups of `a,b` are the groups of `a` followed by the groups of `b` |
| Config.ParseSingle | app/config.py:21-22 | a comma-free setting gives its stripped text as the only group, or no group when that is blank |
| Store.Bind | app/database.py:51-54 | sqlite3 binds None as NULL, `True`/`False` as 1/0, a 64-bit integer as itself and a string as text; it rejects lists, dicts and integers beyond 64 bits, which are all the binding failures among the values the model can represent |
| Store.Digits | app/database.py:19-21 | the decimal digits of a natural number form a canonical numeral: digits only, no leading zero |
| Store.DigitsRoundTrip | app/database.py:19-21 | reading the decimal digits of a number back gives the number |
| Store.DecimalText | app/database.py:19-21 | an integer's text starts with a minus sign exactly when it is negative, and the rest is a canonical numeral |
| Store.DecimalTextInjective | app/database.py:19-21 | distinct integers have distinct decimal texts |
| Store.TextAffinity | app/database.py:17-34 | a TEXT column never holds an integer; it keeps NULL as NULL and text unchanged |
| Store.TextAffinityOnIntegers | app/database.py:17-34 | a TEXT column cannot tell an integer from its decimal text, but keeps distinct integers distinct |
| Store.TextColumn | app/database.py:17-34 | what a TEXT column stores for a JSON value: NULL for None, "1"/"0" for `True`/`False`, the decimal text of a 64-bit integer, a string unchanged; nothing where binding raises |
| Store.StoreReceipt | app/database.py:47-57 | the insert succeeds exactly when the id is new and every value binds; it adds exactly one unforwarded row under the returned id, each value as its TEXT column keeps it, and changes nothing else |
| Store.Unforwarded | app/database.py:59-64 | returns exactly the rows whose `forwarded` flag is false, unchanged |
| Store.GetReceipt | app/database.py:66-71 | returns the row for a present id, and None exactly when the id is absent |
| Store.MarkForwarded | app/database.py:73-77 | sets `forwarded` on that id only; keys and logs are unchanged, and an unknown id changes nothing |
| Store.MarkIdempotent | app/database.py:73-77 | marking the same id twice equals marking it once |
| Store.LogQuery | app/database.py:79-89 | succeeds exactly when the query id is unused and the values bind; it appends exactly one query record with the given match id and status, the name and group as their TEXT columns keep them |
| Store.LogEvent | app/database.py:91-99 | appends exactly one event with the given action and metadata and leaves the other tables alone |
| Store.ExtendsTransitive | app/database.py:47-99 | any sequence of these operations keeps every row's content, never clears `forwarded`, and only appends to the logs |
| Store.DuplicateNamesAllowed | app/database.py:47-57 | two receipts with the same customer name are both stored under distinct ids |
| Matcher.BestScoreAttained | app/utils.py:7-14 | a positive best score is the score of some fetched row |
| Matcher.BestMatchUnique | app/utils.py:3-14 | the best match is uniquely determined by the fetched rows in their order |
| Matcher.ScanStep | app/utils.py:9-13 | one loop iteration turns the best match of the first i rows into the best match of the first i+1 |
| Matcher.Scan | app/utils.py:9-14 | the loop ends with the best match of all rows |
| Matcher.FindMatch | app/utils.py:3-14 | returns the first row with the strictly greatest score; every score is at most the returned one; `(None, 0)` when there are no rows or every score is 0; a row whenever some score is positive |
| Matcher.MatchIsUnforwarded | app/utils.py:5-14 | over the store's unforwarded rows, a returned id names an existing receipt that is not yet forwarded |
| Matcher.TieGoesToFirst | app/utils.py:11-13 | among rows tied for the top score, the first one fetched wins |
| Routing.PayloadOf | app/main.py:76 | a truthy decoded body is the payload; anything else becomes the empty dict |
| Routing.GroupId | app/main.py:80 | the group is the first truthy of `chatId`, `chat_id` and `from`, else the value of `from` |
| Routing.MessageOf | app/main.py:99 | the nested message is the `message` dict, or empty when the key is absent; it is unusable exactly when `message` is present but not a dict |
| Routing.SelectText | app/main.py:91-99 | the text is taken from the `text` key when present, whatever its value, else from `body`; otherwise it is the first truthy of the nested message's `text` and `caption`, and unusable exactly when the nested message is |
| Routing.SelectMedia | app/main.py:102 | the media is a truthy top-level `media`, else the nested message's `media`, and unusable exactly when that lookup raises |
| Routing.CandidateName | app/main.py:105 | the candidate name is the first truthy of `customer_name`, `senderName` and the text |
| Routing.MediaUrl | app/main.py:113 | the media URL is the first truthy of `url`, `mediaUrl` and `fileUrl` |
| Routing.Label | app/main.py:124 | the stored label is the candidate name when truthy, else "unknown", and is never falsy |
| Routing.Route | app/main.py:71-133 | 401 exactly when a non-empty secret differs from the header; ignored exactly when a dict payload's group is not listed in a non-empty list; storage only with a media dict and a truthy URL, carrying that URL, the group, the candidate name and the media's `fileName`; a query only without a media dict and with a truthy name; otherwise an uncaught error exactly when the payload is not a dict, or when the text or media lookup has to read a `message` value that is not a dict |
| Routing.NoSecretAdmitsAll | app/main.py:72-74 | with the secret unset or empty, no request is rejected |
| Routing.EmptyListAdmitsAll | app/main.py:85-87 | with an empty group list, no request is ignored |
| Config.LoadedMonitoredGroups | app/config.py:44 | the group list in force is non-empty, and each entry is non-blank, stripped and comma-free |
| Config.SettingOverridden | app/config.py:21-44 | the setting does not change the group list in force: any two settings give the same list, and even the empty setting, which parses to no group, gives a non-empty list |
| Routing.LoadedGroupsIgnoreOthers | app/config.py:44 | whatever the environment says, a group other than the two literal ids is ignored |
| Webhook.Apply | app/main.py:116-149 | one call that does not raise only extends the tables and the queue; it forwards only an id it marks and inserts only an id it names |
| Webhook.Recover | app/main.py:153-158 | the handler answers 500; it appends exactly one `webhook_error` event with the exception text and touches no other table, or changes no table at all when that log call raises; the answer is `error` with one admin message exactly when neither handler call raises |
| Webhook.Run | app/main.py:110-158 | the try block only extends the tables and the queue; it answers 200 ok exactly when every call completed, neither made to raise nor raising by itself (a bad file name, a duplicate id, a value that does not bind), and otherwise 500 with `webhook_error` as the last event when the handler can log |
| Webhook.RunMarksOnlyPlanned | app/main.py:110-151 | a receipt becomes forwarded only if some call of the plan marks it |
| Webhook.RunInsertsOnlyPlanned | app/main.py:110-151 | a receipt row appears only if some call of the plan inserts it |
| Webhook.RunSendsOnlyPlanned | app/main.py:110-158 | a queued message is one a call of the plan sends, or the handler's note to the admin |
| Webhook.StorePlan | app/main.py:111-130 | the store branch marks nothing and inserts only the fresh id |
| Webhook.AnnouncePlan | app/main.py:125-130 | after the insert, the store branch only logs and enqueues |
| Webhook.ForwardPlan | app/main.py:145-149 | forwarding inserts nothing, marks the matched id and no other, and enqueues only that row's image |
| Webhook.QueryPlan | app/main.py:135-149 | the query branch inserts nothing and marks only the matched id, and only when it is non-empty and its row exists; it enqueues only the matched row's image |
| Webhook.RunStore | app/main.py:111-130 | the store branch forwards nothing, adds no row but the fresh id, and ends with `webhook_error` on a 500 when the handler can log; it answers 200 only with a valid file name, a fresh id and a label and group that bind |
| Webhook.StoreRanClean | app/main.py:116-124 | a store branch whose calls all complete had a valid file name, a fresh id, and a label and group that bind |
| Webhook.RunQuery | app/main.py:134-149 | the query branch adds no row, forwards only the non-empty matched id, and enqueues only the image of that receipt, which was unforwarded |
| Webhook.Execute | app/main.py:71-158 | 401 exactly on rejection, with no table changed and nothing sent; ignored and uncaught requests, media without a URL and a query without a name change nothing and send nothing; only a query forwards, only its match, and it sends only the image of an unforwarded receipt; only a store inserts, only the fresh id |
| Webhook.Handle | app/main.py:61-158 | a request only extends the tables; 401 exactly when the secret check rejects, and then no table changes and nothing is sent; a forwarded receipt is the match of a routed query; a new row is the fresh id of a routed store; a query sends only the image of the receipt it matched, which was unforwarded |
| Webhook.AnnounceRuns | app/main.py:125-130 | when no call raises, `receipt_saved` and `receipt_enqueued_forward` are logged in that order and the image is enqueued once |
| Webhook.StoreChecksRun | app/main.py:116-120 | a valid file name and a successful download change nothing |
| Webhook.InsertApplies | app/main.py:124 | the insert adds the one new row, with the label and group as their TEXT columns keep them |
| Webhook.SavePlan | app/main.py:122-124 | saving and inserting marks nothing and inserts only the fresh id |
| Webhook.SaveRuns | app/main.py:122-124 | when saving and inserting succeed, exactly the new labelled row is added before the announcing calls |
| Webhook.StorePrefixRuns | app/main.py:116-124 | when the calls up to the insert succeed, exactly the new labelled row is added |
| Webhook.StoreSucceeds | app/main.py:111-130 | a media message whose calls all succeed stores exactly one new unforwarded receipt, logs the two events, enqueues the image once and answers 200 |
| Webhook.ForwardRuns | app/main.py:145-149 | forwarding enqueues the matched image, marks the row, then logs `match_forwarded` |
| Webhook.QueryForwards | app/main.py:135-149 | a query whose best match is a non-empty id forwards that unforwarded receipt once, marks exactly it and answers 200 |
| Webhook.QueryWithoutMatch | app/main.py:135-138 | a query with no positive score changes no table, enqueues nothing and answers 200 |
| Webhook.ForwardedOnce | app/main.py:136-148 | once a query has forwarded a receipt, that receipt is no longer unforwarded, and no later match over the unforwarded rows can return it |
| Webhook.DownloadFailureStoresNothing | app/main.py:120 | a failed download stores no row and answers 500; `webhook_error` is the only new event when the handler can log |
| Webhook.BadFileNameStoresNothing | app/main.py:116 | a truthy `fileName` that is not a string makes `secure_filename` raise: no row is stored, the answer is 500, and `webhook_error` is the only new event when the handler can log |
| Webhook.MatchFailureForwardsNothing | app/main.py:136 | a failed match call forwards nothing and answers 500; `webhook_error` is the only new event when the handler can log |

## Left out

- The Flask app itself is not modelled: the index, health and admin endpoints, logging, and startup (directory creation, `setup_database`, starting the Telegram worker).
- File I/O is not modelled. The temporary path, writing the encrypted file and the `/app/uploads` layout are reduced to the saved path in `Env`.
- Encryption (`encryption.py`), the Evolution API client, and the Telegram worker and its queue consumer are external services. They appear only as calls that may raise, plus the messages put on the outbound queue.
- `secure_filename` is reduced to its one failure: it raises on a truthy `fileName` that is not a string. The sanitised name is not modelled, and neither is the fallback name built from the group and `time.time()`.
- Webhook.Env: the saved path is a free parameter. The code derives it from the file name (main.py:116, 122, 46), so two media with the same file name overwrite the same file and both rows point to it. The model does not link the file name to the stored `image_path`.
- Concurrency is not modelled. Each request is handled atomically against one state of the tables. `app.run` serves requests on several threads, so two queries handled at the same time can both fetch the same unforwarded row and both forward it.
- Webhook.Env: each request has one timestamp, because the per-call `utcnow()` values are not distinguished.
- Store.Meta: event metadata and captions are the values that are formatted, in order. The f-string and `json.dumps` rendering is not modelled.
- Json.Json: JSON numbers are integers. Floats are not modelled.
- Json.Json: strings are sequences of Unicode scalar values. A decoded string holding an unpaired surrogate (a JSON `\ud800` escape, or an environment value decoded with `surrogateescape`) cannot be expressed, so the sqlite3 encoding error it causes when bound is not modelled either.
- The payload's `type` field (main.py:82) is read but never used, so it is not modelled.
- Matcher.FindMatch: `fuzz.token_sort_ratio` is a parameter, so nothing is assumed about it beyond returning a natural number.
- Matcher.FindMatch: the pool's order is SQLite's choice, so the pool is a parameter. `Webhook.RunQuery`, `Webhook.Execute` and `Webhook.Handle` require it to be exactly the unforwarded rows of the tables (`IsPoolOf`).
- `Store.LogQuery` is modelled, but the handler never calls it.
- `Store.Unforwarded` and `Store.GetReceipt` are modelled, but the handler queries the table directly.
- The schema created by `setup_database` is assumed, not modelled.
- Webhook.Recover: the 500 the framework returns when a handler call itself raises is modelled only as a status without a body.

## Findings

| source | as written | input that shows it | evidently intended | confidence | as-written member | corrected member |
|---|---|---|---|---|---|---|
| app/main.py:136 | `find_match_in_db` is called with only the candidate name, but app/utils.py:3 requires a database connection as well, so the call raises TypeError | any text message from a listed group with a truthy candidate name and no media | pass a connection, then forward the best match | not executed; high | Webhook.MatchFailureForwardsNothing | Webhook.QueryForwards |
| app/main.py:120 | `evolution_api.download_media` is not defined in app/evolution_api.py, so the call raises AttributeError. The next call, `encryption.encrypt_bytes` at main.py:45, is not defined either, since app/encryption.py only has `encrypt_image` | any message from a listed group whose media dict has a truthy `url` | download, encrypt and store the image, then enqueue it | not executed; high | Webhook.DownloadFailureStoresNothing | Webhook.StoreSucceeds |

Which calls raise is an input of the model, so the code as written and the
corrected code are two instances of the same definitions. With `Download`
or `MatchCall` in `Env.raises` you get the behaviour as written, shown by
the as-written members. With every call succeeding you get the intended
behaviour, proved by the corrected members.

=== FILE: config.dfy ===
/** The MONITORED_GROUPS setting: the environment's comma-separated list,
    split on ',', each piece stripped of whitespace, blank pieces dropped,
    and the later module-level rebinding that replaces the parsed list. */
module Config {

  /** Python's str.isspace() for one character: the ASCII controls TAB to CR,
      the separators 0x1C-0x1F, space, and the Unicode whitespace code points. */
  predicate IsSpace(c: char) {
    || c == ' '
    || ('\t' <= c <= '\r')
    || ('\U{1c}' <= c <= '\U{1f}')
    || c == '\U{85}'
    || c == '\U{a0}'
    || c == '\U{1680}'
    || ('\U{2000}' <= c <= '\U{200a}')
    || c == '\U{2028}'
    || c == '\U{2029}'
    || c == '\U{202f}'
    || c == '\U{205f}'
    || c == '\U{3000}'
  }

  /** Neither end of `s` is whitespace. */
  predicate IsStripped(s: string) {
    s == [] || (!IsSpace(s[0]) && !IsSpace(s[|s| - 1]))
  }

  /** Drops the leading whitespace of `s`. */
  function TrimLeft(s: string): string {
    if |s| > 0 && IsSpace(s[0]) then TrimLeft(s[1..]) else s
  }

  /** What `TrimLeft` keeps is a suffix that does not start with whitespace,
      and what it drops is all whitespace. */
  lemma {:induction false} TrimLeftSpec(s: string)
    ensures var r := TrimLeft(s);
            && |r| <= |s| && r == s[|s| - |r|..]
            && (r == [] || !IsSpace(r[0]))
            && forall k :: 0 <= k < |s| - |r| ==> IsSpace(s[k])
    decreases |s|
  {
    if |s| > 0 && IsSpace(s[0]) {
      TrimLeftSpec(s[1..]);
      var r := TrimLeft(s);
      assert s[1..][|s| - 1 - |r|..] == s[|s| - |r|..];
      assert forall k :: 1 <= k < |s| - |r| ==> s[k] == s[1..][k - 1];
    }
  }

  /** Drops the trailing whitespace of `s`. */
  function TrimRight(s: string): string {
    if |s| > 0 && IsSpace(s[|s| - 1]) then TrimRight(s[..|s| - 1]) else s
  }

  /** What `TrimRight` keeps is a prefix that does not end in whitespace,
      and what it drops is all whitespace. */
  lemma {:induction false} TrimRightSpec(s: string)
    ensures var r := TrimRight(s);
            && |r| <= |s| && r == s[..|r|]
            && (r == [] || !IsSpace(r[|r| - 1]))
            && forall k :: |r| <= k < |s| ==> IsSpace(s[k])
    decreases |s|
  {
    if |s| > 0 && IsSpace(s[|s| - 1]) {
      TrimRightSpec(s[..|s| - 1]);
      var r := TrimRight(s);
      assert s[..|s| - 1][..|r|] == s[..|r|];
      assert forall k :: |r| <= k < |s| - 1 ==> s[k] == s[..|s| - 1][k];
    }
  }

  /** Python's `s.strip()`: no whitespace at either end (`StripIsTrim`
      says what is cut). */
  function Strip(s: string): (r: string)
    ensures IsStripped(r)
    ensures |r| <= |s|
  {
    TrimLeftSpec(s);
    TrimRightSpec(TrimLeft(s));
    TrimRight(TrimLeft(s))
  }

  /** The stripped text is the middle of `s`, and everything cut from
      either end is whitespace. */
  lemma StripIsTrim(s: string)
    ensures exists i, j :: 0 <= i <= j <= |s| && Strip(s) == s[i..j]
                           && (forall k :: 0 <= k < i ==> IsSpace(s[k]))
                           && (forall k :: j <= k < |s| ==> IsSpace(s[k]))
  {
    var t := TrimLeft(s);
    var r := TrimRight(t);
    TrimLeftSpec(s);
    TrimRightSpec(t);
    var i := |s| - |t|;
    var j := i + |r|;
    assert r == s[i..j];
    forall k | j <= k < |s|
      ensures IsSpace(s[k])
    {
      assert s[k] == t[k - i];
    }
  }

  /** Stripping adds no character, so in particular no comma. */
  lemma StripCommaFree(s: string)
    requires ',' !in s
    ensures ',' !in Strip(s)
  {
    var t := TrimLeft(s);
    var r := TrimRight(t);
    TrimLeftSpec(s);
    TrimRightSpec(t);
    forall k | 0 <= k < |r|
      ensures r[k] != ','
    {
      assert r[k] == t[k] == s[|s| - |t| + k];
    }
  }

  /** Python's `",".join(pieces)`. */
  function Join(pieces: seq<string>): string
    requires |pieces| > 0
  {
    if |pieces| == 1 then pieces[0]
    else pieces[0] + [','] + Join(pieces[1..])
  }

  /** Python's `s.split(",")`: at least one piece (`SplitCommaFree` and
      `JoinSplit` say what the pieces are). */
  function Split(s: string): (pieces: seq<string>)
    ensures |pieces| > 0
  {
    if s == [] then [[]]
    else
      var rest := Split(s[1..]);
      if s[0] == ',' then [[]] + rest
      else [[s[0]] + rest[0]] + rest[1..]
  }

  /** No piece contains the separator. */
  lemma {:induction false} SplitCommaFree(s: string)
    ensures forall p <- Split(s) :: ',' !in p
    decreases |s|
  {
    if s != [] {
      SplitCommaFree(s[1..]);
      var rest := Split(s[1..]);
      if s[0] != ',' {
        assert rest[0] in rest;
        assert forall p <- rest[1..] :: p in rest;
      }
    }
  }

  /** The stripped non-blank pieces, in order. */
  function KeepStripped(pieces: seq<string>): seq<string> {
    if pieces == [] then [] else KeepOne(pieces[0]) + KeepStripped(pieces[1..])
  }

  /** The entry one piece contributes: its stripped text, unless blank. */
  function KeepOne(p: string): seq<string> {
    if Strip(p) == [] then [] else [Strip(p)]
  }

  /** Every kept entry is non-blank and stripped. */
  lemma {:induction false} KeepNonBlank(ps: seq<string>)
    ensures forall g <- KeepStripped(ps) :: g != [] && IsStripped(g)
    decreases |ps|
  {
    if ps != [] {
      KeepNonBlank(ps[1..]);
    }
  }

  /** No piece whose stripped text is non-blank is dropped. */
  lemma {:induction false} KeepComplete(ps: seq<string>)
    ensures forall p <- ps :: Strip(p) != [] ==> Strip(p) in KeepStripped(ps)
    decreases |ps|
  {
    if ps != [] {
      KeepComplete(ps[1..]);
      assert forall p <- ps :: p == ps[0] || p in ps[1..];
    }
  }

  /** Comma-free pieces keep comma-free entries. */
  lemma {:induction false} KeepCommaFree(ps: seq<string>)
    requires forall p <- ps :: ',' !in p
    ensures forall g <- KeepStripped(ps) :: ',' !in g
    decreases |ps|
  {
    if ps != [] {
      assert ps[0] in ps;
      StripCommaFree(ps[0]);
      assert forall p <- ps[1..] :: p in ps;
      KeepCommaFree(ps[1..]);
    }
  }

  /** `[g.strip() for g in raw.split(",") if g.strip()]`. */
  function ParseGroups(raw: string): (groups: seq<string>)
    ensures forall g <- groups :: g != [] && IsStripped(g) && ',' !in g
    ensures forall p <- Split(raw) :: Strip(p) != [] ==> Strip(p) in groups
  {
    SplitCommaFree(raw);
    KeepNonBlank(Split(raw));
    KeepCommaFree(Split(raw));
    KeepComplete(Split(raw));
    KeepStripped(Split(raw))
  }

  /** The group list that MONITORED_GROUPS holds once the configuration
      module has been imported with the setting `raw`: the module later
      rebinds the name to a literal list, so the parse is lost. The list is
      non-empty and as well formed as a parsed one. */
  function LoadedMonitoredGroups(raw: string): (groups: seq<string>)
    ensures |groups| > 0
    ensures forall g <- groups :: g != [] && IsStripped(g) && ',' !in g
  {
    ["120363403036388430@g.us", "group2@g.us"]
  }

  /** The setting has no effect on the loaded list: any two settings load
      the same groups, and even the empty setting, which parses to no
      group, loads a non-empty list. */
  lemma SettingOverridden(raw: string, other: string)
    ensures LoadedMonitoredGroups(raw) == LoadedMonitoredGroups(other)
    ensures ParseGroups("") == [] && LoadedMonitoredGroups("") != ParseGroups("")
  {
    ParseEmpty();
  }

  /** The empty setting parses to no groups at all. */
  lemma ParseEmpty()
    ensures ParseGroups("") == []
  {
    assert Split("") == [""];
    assert Strip("") == "";
    KeepCons("", []);
    assert [""] == [""] + [];
  }

  /** One step of the split: the first character either ends the first
      piece or joins it. */
  lemma SplitCons(c: char, t: string)
    ensures Split([c] + t) == ConsPiece(c, Split(t))
  {
    assert ([c] + t)[0] == c;
    assert ([c] + t)[1..] == t;
  }

  /** The pieces that a leading character `c` makes of `x`: a new empty
      piece before them when `c` is the separator, else `c` prefixed to the
      first one. */
  function ConsPiece(c: char, x: seq<string>): seq<string>
    requires |x| > 0
  {
    if c == ',' then [[]] + x else [[c] + x[0]] + x[1..]
  }

  /** A leading character only touches the first piece, so it commutes with
      appending more pieces. */
  lemma ConsPieceAppend(c: char, x: seq<string>, y: seq<string>)
    requires |x| > 0
    ensures ConsPiece(c, x + y) == ConsPiece(c, x) + y
  {
    if c != ',' {
      assert (x + y)[0] == x[0];
      assert (x + y)[1..] == x[1..] + y;
    }
  }

  /** Splitting distributes over a comma: the pieces of `a,b` are the pieces
      of `a` followed by the pieces of `b`. */
  lemma {:induction false} SplitConcat(a: string, b: string)
    ensures Split(a + [','] + b) == Split(a) + Split(b)
    decreases |a|
  {
    if a == [] {
      assert a + [','] + b == [','] + b;
      SplitCons(',', b);
    } else {
      var c, t := a[0], a[1..];
      assert a == [c] + t;
      assert a + [','] + b == [c] + (t + [','] + b);
      SplitCons(c, t + [','] + b);
      SplitCons(c, t);
      SplitConcat(t, b);
      ConsPieceAppend(c, Split(t), Split(b));
    }
  }

  /** One step of the filter: the first piece is kept, stripped, unless blank. */
  lemma KeepCons(p: string, ps: seq<string>)
    ensures KeepStripped([p] + ps) == KeepOne(p) + KeepStripped(ps)
  {
    assert ([p] + ps)[0] == p;
    assert ([p] + ps)[1..] == ps;
  }

  /** Filtering distributes over concatenation. */
  lemma {:induction false} KeepConcat(ps: seq<string>, qs: seq<string>)
    ensures KeepStripped(ps + qs) == KeepStripped(ps) + KeepStripped(qs)
    decreases |ps|
  {
    if ps == [] {
      assert ps + qs == qs;
    } else {
      var p, rest := ps[0], ps[1..];
      assert ps == [p] + rest;
      assert ps + qs == [p] + (rest + qs);
      KeepCons(p, rest + qs);
      KeepCons(p, rest);
      KeepConcat(rest, qs);
    }
  }

  /** Every kept entry is the stripped text of one of the pieces. */
  lemma {:induction false} KeepSound(ps: seq<string>)
    ensures forall g <- KeepStripped(ps) :: exists p <- ps :: g == Strip(p)
    decreases |ps|
  {
    if ps != [] {
      var rest := ps[1..];
      KeepSound(rest);
      var g0 := Strip(ps[0]);
      assert KeepStripped(ps) == (if g0 == [] then [] else [g0]) + KeepStripped(rest);
      forall g <- KeepStripped(ps) ensures exists p <- ps :: g == Strip(p) {
        if g in KeepStripped(rest) {
          var p :| p in rest && g == Strip(p);
          assert p in ps;
        } else {
          assert ps[0] in ps;
        }
      }
    }
  }

  /** Every parsed group is the stripped text of one comma-separated piece. */
  lemma ParseSound(raw: string)
    ensures forall g <- ParseGroups(raw) :: exists p <- Split(raw) :: g == Strip(p)
  {
    KeepSound(Split(raw));
  }

  /** Entries keep the order of the pieces they came from: the groups of
      `a,b` are the groups of `a` followed by the groups of `b`. */
  lemma ParseConcat(a: string, b: string)
    ensures ParseGroups(a + [','] + b) == ParseGroups(a) + ParseGroups(b)
  {
    SplitConcat(a, b);
    KeepConcat(Split(a), Split(b));
  }

  /** A comma-free setting names at most one group: its stripped text, when
      that is not blank. */
  lemma {:induction false} ParseSingle(s: string)
    requires ',' !in s
    ensures ParseGroups(s) == if Strip(s) == [] then [] else [Strip(s)]
  {
    SplitJoin([s]);
    assert [s][1..] == [];
    assert KeepStripped([s]) == (if Strip(s) == [] then [] else [Strip(s)]) + KeepStripped([]);
  }

  /** Splitting undoes joining whenever no piece contains a comma. */
  lemma {:induction false} SplitJoin(pieces: seq<string>)
    requires |pieces| > 0
    requires forall p <- pieces :: ',' !in p
    ensures Split(Join(pieces)) == pieces
    decreases |pieces|
  {
    if |pieces| == 1 {
      SplitPrefix(pieces[0], []);
      assert pieces[0] + [] == pieces[0];
    } else {
      var p := pieces[0];
      var t := [','] + Join(pieces[1..]);
      assert Join(pieces) == p + t;
      SplitPrefix(p, t);
      assert t[1..] == Join(pieces[1..]);
      assert forall q <- pieces[1..] :: q in pieces;
      SplitJoin(pieces[1..]);
      assert Split(t) == [[]] + pieces[1..];
      assert p + [] == p;
    }
  }

  /** Joining the pieces with commas gives the split text back. */
  lemma {:induction false} JoinSplit(s: string)
    ensures Join(Split(s)) == s
    decreases |s|
  {
    if s != [] {
      JoinSplit(s[1..]);
      var rest := Split(s[1..]);
      if s[0] == ',' {
        assert Split(s) == [[]] + rest;
        assert (([[]] + rest)[1..]) == rest;
      } else {
        assert Split(s) == [[s[0]] + rest[0]] + rest[1..];
        if |rest| == 1 {
          assert s == [s[0]] + rest[0];
        } else {
          assert Join(rest) == rest[0] + [','] + Join(rest[1..]);
          assert s == [s[0]] + s[1..];
        }
      }
    }
  }

  /** A comma-free prefix glues onto the first piece of what follows it. */
  lemma {:induction false} SplitPrefix(p: string, t: string)
    requires ',' !in p
    ensures Split(p + t) == [p + Split(t)[0]] + Split(t)[1..]
    decreases |p|
  {
    if p == [] {
      assert p + t == t;
      assert Split(t) == [Split(t)[0]] + Split(t)[1..];
      assert p + Split(t)[0] == Split(t)[0];
    } else {
      assert (p + t)[0] == p[0];
      assert (p + t)[1..] == p[1..] + t;
      SplitPrefix(p[1..], t);
      assert [p[0]] + (p[1..] + Split(t)[0]) == p + Split(t)[0];
    }
  }
}

=== FILE: json.dfy ===
/** JSON values as Python's json module decodes a webhook body, with Python's
    truthiness and the `or` and `dict.get` idioms the handler is built from. */
module Json {

  /** A decoded JSON value. Objects are dicts (a repeated key keeps its last
      value when decoded, so a map is exact); numbers are integers; strings
      hold Unicode scalar values only, so an unpaired surrogate is not
      representable. */
  datatype Json =
    | Null
    | Bool(b: bool)
    | Num(n: int)
    | Str(s: string)
    | Array(items: seq<Json>)
    | Object(fields: map<string, Json>)

  /** Python's bool(): None, False, 0, "", [] and {} are falsy, all else truthy. */
  predicate Truthy(j: Json) {
    match j
    case Null => false
    case Bool(b) => b
    case Num(n) => n != 0
    case Str(s) => s != ""
    case Array(items) => items != []
    case Object(fields) => fields != map[]
  }

  /** `d.get(k)`: the value under `k`, or None when the key is absent. */
  function Get(d: map<string, Json>, k: string): Json {
    if k in d then d[k] else Null
  }

  /** `d.get(k, default)`. */
  function GetOr(d: map<string, Json>, k: string, default: Json): Json {
    if k in d then d[k] else default
  }

  /** `r` is what a Python chain `vs[0] or vs[1] or ...` may evaluate to:
      the first truthy operand, or the last operand when none is truthy. */
  ghost predicate IsFirstTruthy(vs: seq<Json>, r: Json)
    requires |vs| > 0
  {
    if exists i :: 0 <= i < |vs| && Truthy(vs[i]) then
      exists i :: 0 <= i < |vs| && Truthy(vs[i]) && r == vs[i]
                  && forall j :: 0 <= j < i ==> !Truthy(vs[j])
    else
      r == vs[|vs| - 1]
  }

  /** Python's `a or b`. */
  function Or(a: Json, b: Json): Json {
    if Truthy(a) then a else b
  }

  /** The chain `vs[0] or vs[1] or ... or vs[n-1]`, grouped to the left as
      Python parses it. */
  function OrChain(vs: seq<Json>): (r: Json)
    requires |vs| > 0
    ensures IsFirstTruthy(vs, r)
    ensures Truthy(r) <==> exists i :: 0 <= i < |vs| && Truthy(vs[i])
  {
    if |vs| == 1 then vs[0]
    else
      var init := vs[..|vs| - 1];
      var acc := OrChain(init);
      assert forall i :: 0 <= i < |init| ==> init[i] == vs[i];
      Or(acc, vs[|vs| - 1])
  }
}

=== FILE: matcher.dfy ===
/** `find_match_in_db`: scan the unforwarded receipts and keep the id with
    the strictly greatest similarity score. The similarity function
    (fuzz.token_sort_ratio) is a parameter. */
module Matcher {
  import opened Wrappers
  import opened Json
  import opened Store

  /** One row of `SELECT id, customer_name FROM receipts WHERE forwarded = FALSE`. */
  datatype Candidate = Candidate(id: Id, name: SqlValue)

  /** The returned pair `(best_match, best_score)`. */
  datatype Match = Match(id: Option<Id>, score: nat)

  /** The similarity between the query and a stored customer name. */
  type Scorer = (Json, SqlValue) -> nat

  /** `pool` is a result the pool query may return for `db`: every
      unforwarded row exactly once, in whatever order SQLite chooses. */
  ghost predicate IsPoolOf(pool: seq<Candidate>, db: Db) {
    && (forall i, j :: 0 <= i < j < |pool| ==> pool[i].id != pool[j].id)
    && (forall c <- pool :: c.id in db.receipts && !db.receipts[c.id].forwarded
                            && db.receipts[c.id].customerName == c.name)
    && (forall id | id in db.receipts && !db.receipts[id].forwarded :: exists c <- pool :: c.id == id)
  }

  /** `m` is the best match for `query` in `pool`: its score bounds every
      candidate's score, no id is returned exactly when that score is 0, and
      a returned id is that of the first candidate reaching the score. */
  ghost predicate IsBestMatch(query: Json, pool: seq<Candidate>, score: Scorer, m: Match) {
    && (forall k :: 0 <= k < |pool| ==> score(query, pool[k].name) <= m.score)
    && (m.id.None? <==> m.score == 0)
    && (m.id.Some? ==>
          exists i :: 0 <= i < |pool| && pool[i].id == m.id.value && score(query, pool[i].name) == m.score
                      && forall j :: 0 <= j < i ==> score(query, pool[j].name) < m.score)
  }

  /** A positive best score is some candidate's score. */
  lemma BestScoreAttained(query: Json, pool: seq<Candidate>, score: Scorer, m: Match)
    requires IsBestMatch(query, pool, score, m)
    ensures m.score == 0 || exists k :: 0 <= k < |pool| && score(query, pool[k].name) == m.score
  {
    if m.id.Some? {
      var i :| 0 <= i < |pool| && pool[i].id == m.id.value && score(query, pool[i].name) == m.score;
    }
  }

  /** The best match is unique: any two results meeting the specification
      are equal, so the scan's answer is fully determined by the pool order. */
  lemma BestMatchUnique(query: Json, pool: seq<Candidate>, score: Scorer, m1: Match, m2: Match)
    requires IsBestMatch(query, pool, score, m1) && IsBestMatch(query, pool, score, m2)
    ensures m1 == m2
  {
    BestScoreAttained(query, pool, score, m1);
    BestScoreAttained(query, pool, score, m2);
    assert m1.score == m2.score;
    if m1.id.Some? {
      var i1 :| 0 <= i1 < |pool| && pool[i1].id == m1.id.value && score(query, pool[i1].name) == m1.score
                && forall j :: 0 <= j < i1 ==> score(query, pool[j].name) < m1.score;
      var i2 :| 0 <= i2 < |pool| && pool[i2].id == m2.id.value && score(query, pool[i2].name) == m2.score
                && forall j :: 0 <= j < i2 ==> score(query, pool[j].name) < m2.score;
      assert !(i1 < i2);
      assert !(i2 < i1);
    }
  }

  /** One loop iteration: the body `if score > best_score` turns a best match
      of the first `i` candidates into one of the first `i + 1`. */
  lemma ScanStep(query: Json, pool: seq<Candidate>, score: Scorer, i: nat, acc: Match)
    requires i < |pool|
    requires IsBestMatch(query, pool[..i], score, acc)
    ensures var s := score(query, pool[i].name);
            IsBestMatch(query, pool[..i + 1], score, if s > acc.score then Match(Some(pool[i].id), s) else acc)
  {
    var s := score(query, pool[i].name);
    var next := if s > acc.score then Match(Some(pool[i].id), s) else acc;
    var pre, post := pool[..i], pool[..i + 1];
    assert forall k :: 0 <= k < i ==> post[k] == pre[k];
    assert post[i] == pool[i];
    if s > acc.score {
      assert forall j :: 0 <= j < i ==> score(query, post[j].name) < next.score;
      assert post[i].id == next.id.value && score(query, post[i].name) == next.score;
    } else if acc.id.Some? {
      var w :| 0 <= w < i && pre[w].id == acc.id.value && score(query, pre[w].name) == acc.score
               && forall j :: 0 <= j < w ==> score(query, pre[j].name) < acc.score;
      assert post[w] == pre[w];
    }
  }

  /** The loop over the pool from position `i`, with `acc` the best match of
      the first `i` candidates. */
  function Scan(query: Json, pool: seq<Candidate>, score: Scorer, i: nat, acc: Match): (r: Match)
    requires i <= |pool|
    requires IsBestMatch(query, pool[..i], score, acc)
    ensures IsBestMatch(query, pool, score, r)
    decreases |pool| - i
  {
    if i == |pool| then
      assert pool[..i] == pool;
      acc
    else
      var s := score(query, pool[i].name);
      ScanStep(query, pool, score, i, acc);
      Scan(query, pool, score, i + 1, if s > acc.score then Match(Some(pool[i].id), s) else acc)
  }

  /** `find_match_in_db(customer_name, conn)` over the rows `pool` in the
      order they were fetched: the strictly best-scoring id, or `(None, 0)`.
      No threshold is applied. */
  function FindMatch(query: Json, pool: seq<Candidate>, score: Scorer): (r: Match)
    ensures IsBestMatch(query, pool, score, r)
    ensures pool == [] ==> r == Match(None, 0)
    ensures (forall c <- pool :: score(query, c.name) == 0) ==> r == Match(None, 0)
    ensures (exists c <- pool :: score(query, c.name) > 0) ==> r.id.Some? && r.score > 0
  {
    assert pool[..0] == [];
    Scan(query, pool, score, 0, Match(None, 0))
  }

  /** With the pool drawn from the store, a returned id names an existing,
      not yet forwarded receipt. */
  lemma MatchIsUnforwarded(query: Json, pool: seq<Candidate>, score: Scorer, db: Db)
    requires IsPoolOf(pool, db)
    ensures var m := FindMatch(query, pool, score);
            m.id.Some? ==> m.id.value in db.receipts && !db.receipts[m.id.value].forwarded
  {
    var m := FindMatch(query, pool, score);
    if m.id.Some? {
      var i :| 0 <= i < |pool| && pool[i].id == m.id.value && score(query, pool[i].name) == m.score;
      assert pool[i] in pool;
    }
  }

  /** Ties go to the earlier row: the result is the first candidate that
      reaches the top score, whatever later candidates tie with it. */
  lemma TieGoesToFirst(query: Json, pool: seq<Candidate>, score: Scorer, i: nat)
    requires i < |pool| && score(query, pool[i].name) > 0
    requires forall k :: 0 <= k < |pool| ==> score(query, pool[k].name) <= score(query, pool[i].name)
    requires forall k :: 0 <= k < i ==> score(query, pool[k].name) < score(query, pool[i].name)
    ensures FindMatch(query, pool, score) == Match(Some(pool[i].id), score(query, pool[i].name))
  {
    var m := Match(Some(pool[i].id), score(query, pool[i].name));
    assert IsBestMatch(query, pool, score, m);
    BestMatchUnique(query, pool, score, FindMatch(query, pool, score), m);
  }
}

=== FILE: routing.dfy ===
/** The decision part of `whatsapp_webhook`: from the configured secret and
    group list and the request's header and body, which branch the handler
    takes and with which extracted fields. Nothing here has side effects;
    the Webhook module runs the effects a decision calls for. */
module Routing {
  import opened Wrappers
  import opened Json
  import Config

  /** WEBHOOK_SECRET (None when unset) and MONITORED_GROUPS. */
  datatype Settings = Settings(secret: Option<string>, monitored: seq<string>)

  /** The X-Webhook-Secret header (None when absent) and the body as
      `request.get_json(silent=True)` returns it (None when not JSON). */
  datatype Request = Request(header: Option<string>, body: Option<Json>)

  /** The branch the handler takes. */
  datatype Decision =
    | Unauthorized                                          // 401 before anything else
    | Uncaught                                              // `.get` on a non-dict before the try block
    | Ignored                                               // group not monitored
    | StoreMedia(name: Json, url: Json, group: Json, fileName: Json) // download, encrypt, store, forward
    | MediaWithoutUrl                                       // a media dict with no URL: nothing stored
    | Query(name: Json)                                     // no media: match the name
    | NoOp                                                  // no media and no name

  /** `if WEBHOOK_SECRET and received_secret != WEBHOOK_SECRET`. */
  predicate Rejects(secret: Option<string>, header: Option<string>) {
    secret.Some? && secret.value != "" && header != secret
  }

  /** `request.get_json(silent=True) or {}`. */
  function PayloadOf(body: Option<Json>): (p: Json)
    ensures Truthy(p) ==> body == Some(p)
    ensures body.Some? && Truthy(body.value) ==> p == body.value
    ensures !Truthy(p) ==> p == Object(map[])
  {
    if body.Some? && Truthy(body.value) then body.value else Object(map[])
  }

  /** `chatId or chat_id or from`. */
  function GroupId(p: map<string, Json>): (g: Json)
    ensures IsFirstTruthy([Get(p, "chatId"), Get(p, "chat_id"), Get(p, "from")], g)
  {
    OrChain([Get(p, "chatId"), Get(p, "chat_id"), Get(p, "from")])
  }

  /** `group_id in MONITORED_GROUPS`: only a JSON string can equal a listed group. */
  predicate IsListed(group: Json, monitored: seq<string>) {
    group.Str? && group.s in monitored
  }

  /** `payload.get("message", {})` when it is a dict; None when it is not,
      where the following `.get` raises AttributeError. */
  function MessageOf(p: map<string, Json>): (m: Option<map<string, Json>>)
    ensures "message" !in p ==> m == Some(map[])
    ensures "message" in p ==> (m.Some? <==> p["message"].Object?)
    ensures m.Some? && "message" in p ==> p["message"] == Object(m.value)
  {
    match GetOr(p, "message", Object(map[]))
    case Object(fields) => Some(fields)
    case _ => None
  }

  /** The text candidate: the `text` key when present, whatever its value,
      else the `body` key when present, else the nested message's `text` or
      `caption`, first truthy. None where reading the nested message raises. */
  function SelectText(p: map<string, Json>): (t: Option<Json>)
    ensures "text" in p ==> t == Some(p["text"])
    ensures "text" !in p && "body" in p ==> t == Some(p["body"])
    ensures "text" !in p && "body" !in p ==>
              (t.None? <==> MessageOf(p).None?)
              && (t.Some? ==> IsFirstTruthy([Get(MessageOf(p).value, "text"), Get(MessageOf(p).value, "caption")],
                                            t.value))
  {
    if "text" in p then Some(p["text"])
    else if "body" in p then Some(p["body"])
    else match MessageOf(p)
      case None => None
      case Some(m) => Some(OrChain([Get(m, "text"), Get(m, "caption")]))
  }

  /** `payload.get("media") or payload.get("message", {}).get("media")`.
      None where the second operand is needed and raises. */
  function SelectMedia(p: map<string, Json>): (m: Option<Json>)
    ensures Truthy(Get(p, "media")) ==> m == Some(p["media"])
    ensures !Truthy(Get(p, "media")) ==>
              (m.None? <==> MessageOf(p).None?)
              && (m.Some? ==> m.value == Get(MessageOf(p).value, "media"))
  {
    var top := Get(p, "media");
    if Truthy(top) then Some(top)
    else match MessageOf(p)
      case None => None
      case Some(msg) => Some(Get(msg, "media"))
  }

  /** `customer_name or senderName or text`. */
  function CandidateName(p: map<string, Json>, text: Json): (n: Json)
    ensures IsFirstTruthy([Get(p, "customer_name"), Get(p, "senderName"), text], n)
  {
    OrChain([Get(p, "customer_name"), Get(p, "senderName"), text])
  }

  /** `url or mediaUrl or fileUrl` of a media dict. */
  function MediaUrl(media: map<string, Json>): (u: Json)
    ensures IsFirstTruthy([Get(media, "url"), Get(media, "mediaUrl"), Get(media, "fileUrl")], u)
  {
    OrChain([Get(media, "url"), Get(media, "mediaUrl"), Get(media, "fileUrl")])
  }

  /** `candidate_name or "unknown"`: the label a stored receipt gets, never falsy. */
  function Label(name: Json): (l: Json)
    ensures Truthy(l)
    ensures Truthy(name) ==> l == name
    ensures !Truthy(name) ==> l == Str("unknown")
  {
    OrChain([name, Str("unknown")])
  }

  /** `media_info and isinstance(media_info, dict)`. */
  predicate IsMediaDict(media: Json) {
    media.Object? && Truthy(media)
  }

  /** The branch `whatsapp_webhook` takes for one request. */
  function Route(cfg: Settings, req: Request): (d: Decision)
    ensures d.Unauthorized? <==> Rejects(cfg.secret, req.header)
    ensures !Rejects(cfg.secret, req.header) ==>
              (d.Uncaught? || d.Ignored? <==> !PayloadOf(req.body).Object?
                                              || (|cfg.monitored| > 0
                                                  && !IsListed(GroupId(PayloadOf(req.body).fields), cfg.monitored))
                                              || SelectText(PayloadOf(req.body).fields).None?
                                              || SelectMedia(PayloadOf(req.body).fields).None?)
    ensures d.Ignored? <==> !Rejects(cfg.secret, req.header) && PayloadOf(req.body).Object?
                            && |cfg.monitored| > 0
                            && !IsListed(GroupId(PayloadOf(req.body).fields), cfg.monitored)
    ensures d.StoreMedia? ==>
              var p := PayloadOf(req.body).fields;
              && IsMediaDict(SelectMedia(p).value)
              && d.url == MediaUrl(SelectMedia(p).value.fields) && Truthy(d.url)
              && d.group == GroupId(p)
              && d.name == CandidateName(p, SelectText(p).value)
              && d.fileName == Get(SelectMedia(p).value.fields, "fileName")
    ensures d.MediaWithoutUrl? ==>
              var p := PayloadOf(req.body).fields;
              IsMediaDict(SelectMedia(p).value) && !Truthy(MediaUrl(SelectMedia(p).value.fields))
    ensures d.Query? ==>
              var p := PayloadOf(req.body).fields;
              !IsMediaDict(SelectMedia(p).value) && d.name == CandidateName(p, SelectText(p).value)
              && Truthy(d.name)
    ensures d.NoOp? ==>
              var p := PayloadOf(req.body).fields;
              !IsMediaDict(SelectMedia(p).value) && !Truthy(CandidateName(p, SelectText(p).value))
  {
    if Rejects(cfg.secret, req.header) then Unauthorized
    else
      var payload := PayloadOf(req.body);
      if !payload.Object? then Uncaught
      else
        var p := payload.fields;
        var group := GroupId(p);
        if |cfg.monitored| > 0 && !IsListed(group, cfg.monitored) then Ignored
        else
          match (SelectText(p), SelectMedia(p))
          case (Some(text), Some(media)) =>
            var name := CandidateName(p, text);
            if IsMediaDict(media) then
              var url := MediaUrl(media.fields);
              if Truthy(url) then StoreMedia(name, url, group, Get(media.fields, "fileName"))
              else MediaWithoutUrl
            else if Truthy(name) then Query(name)
            else NoOp
          case _ => Uncaught
  }

  /** With no secret configured (unset or empty) no request is rejected. */
  lemma NoSecretAdmitsAll(req: Request, monitored: seq<string>)
    ensures Route(Settings(None, monitored), req) != Unauthorized
    ensures Route(Settings(Some(""), monitored), req) != Unauthorized
  {
  }

  /** An empty group list admits every group: a dict payload is never ignored. */
  lemma EmptyListAdmitsAll(secret: Option<string>, req: Request)
    ensures !Route(Settings(secret, []), req).Ignored?
  {
  }

  /** The group list the configuration module leaves in place is never
      empty, so a payload whose group is not one of its two literal ids is
      ignored, whatever the environment said. */
  lemma LoadedGroupsIgnoreOthers(raw: string, secret: Option<string>, req: Request)
    requires !Rejects(secret, req.header) && PayloadOf(req.body).Object?
    requires GroupId(PayloadOf(req.body).fields) !in {Str("120363403036388430@g.us"), Str("group2@g.us")}
    ensures Route(Settings(secret, Config.LoadedMonitoredGroups(raw)), req) == Ignored
  {
  }
}

=== FILE: store.dfy ===
/** The SQLite receipt store as three abstract tables: receipts keyed by id,
    the query log and the event log. Every operation is a state transition
    on an immutable `Db`; the uuid4 ids and utcnow timestamps it would draw
    are parameters. */
module Store {
  import opened Wrappers
  import opened Json

  /** A receipt or query id (a uuid4 hex string). */
  type Id = string

  /** An ISO timestamp, kept opaque. */
  type Timestamp = string

  /** A column value as Python's sqlite3 module stores a bound parameter. */
  datatype SqlValue = SqlNull | SqlInt(i: int) | SqlText(t: string)

  /** The bounds of a SQLite INTEGER. */
  const MinInt64: int := -0x8000_0000_0000_0000
  const MaxInt64: int := 0x7fff_ffff_ffff_ffff

  /** Binding a decoded JSON value as a statement parameter: None binds as
      NULL, True and False as the integers 1 and 0, in-range integers as
      themselves and strings as text; lists, dicts and integers beyond 64
      bits make sqlite3 raise, which is None here. */
  function Bind(j: Json): (r: Option<SqlValue>)
    ensures r.None? <==> j.Array? || j.Object? || (j.Num? && !(MinInt64 <= j.n <= MaxInt64))
    ensures j.Null? ==> r == Some(SqlNull)
    ensures j.Bool? ==> r == Some(SqlInt(if j.b then 1 else 0))
    ensures j.Num? && MinInt64 <= j.n <= MaxInt64 ==> r == Some(SqlInt(j.n))
    ensures j.Str? ==> r == Some(SqlText(j.s))
  {
    match j
    case Null => Some(SqlNull)
    case Bool(b) => Some(SqlInt(if b then 1 else 0))
    case Num(n) => if MinInt64 <= n <= MaxInt64 then Some(SqlInt(n)) else None
    case Str(s) => Some(SqlText(s))
    case Array(_) => None
    case Object(_) => None
  }

  predicate IsDigit(c: char) {
    '0' <= c <= '9'
  }

  /** A canonical decimal numeral: digits only, no leading zero. */
  predicate IsNumeral(s: string) {
    |s| > 0 && (forall k | 0 <= k < |s| :: IsDigit(s[k])) && (s[0] == '0' ==> |s| == 1)
  }

  /** The value of a string of digits, most significant first. */
  function NumeralValue(s: string): nat
    requires forall k | 0 <= k < |s| :: IsDigit(s[k])
  {
    if s == [] then 0
    else
      assert IsDigit(s[|s| - 1]);
      10 * NumeralValue(s[..|s| - 1]) + (s[|s| - 1] as int - '0' as int)
  }

  /** The decimal digits of `n`. */
  function Digits(n: nat): (s: string)
    ensures IsNumeral(s)
  {
    if n < 10 then [('0' as int + n) as char]
    else
      var s := Digits(n / 10) + [('0' as int + n % 10) as char];
      assert s[..|s| - 1] == Digits(n / 10);
      s
  }

  /** Reading the digits back gives the number. */
  lemma {:induction false} DigitsRoundTrip(n: nat)
    ensures NumeralValue(Digits(n)) == n
  {
    if n >= 10 {
      var s := Digits(n);
      assert s[..|s| - 1] == Digits(n / 10);
      DigitsRoundTrip(n / 10);
    }
  }

  /** How SQLite renders an integer as text: an optional minus sign, then
      the digits of its magnitude. */
  function DecimalText(n: int): (s: string)
    ensures |s| > 0
    ensures s[0] == '-' <==> n < 0
    ensures n < 0 ==> IsNumeral(s[1..])
    ensures n >= 0 ==> IsNumeral(s)
  {
    if n < 0 then
      var s := "-" + Digits(-n);
      assert s[1..] == Digits(-n);
      s
    else Digits(n)
  }

  /** The sign and the digits determine the integer: distinct integers
      have distinct texts. */
  lemma DecimalTextInjective(a: int, b: int)
    requires DecimalText(a) == DecimalText(b)
    ensures a == b
  {
    if a < 0 {
      assert DecimalText(a)[1..] == Digits(-a) && DecimalText(b)[1..] == Digits(-b);
      DigitsRoundTrip(-a);
      DigitsRoundTrip(-b);
    } else {
      DigitsRoundTrip(a);
      DigitsRoundTrip(b);
    }
  }

  /** What a TEXT column keeps of a bound value: integers are converted to
      their decimal text, NULL and text are kept as they are. */
  function TextAffinity(v: SqlValue): (r: SqlValue)
    ensures !r.SqlInt?
    ensures r.SqlNull? <==> v.SqlNull?
    ensures v.SqlText? ==> r == v
  {
    match v
    case SqlInt(i) => SqlText(DecimalText(i))
    case _ => v
  }

  /** A TEXT column cannot tell an integer from its decimal text, but it
      keeps distinct integers apart. */
  lemma TextAffinityOnIntegers(a: int, b: int)
    ensures TextAffinity(SqlInt(a)) == TextAffinity(SqlText(DecimalText(a)))
    ensures TextAffinity(SqlInt(a)) == TextAffinity(SqlInt(b)) <==> a == b
  {
    if TextAffinity(SqlInt(a)) == TextAffinity(SqlInt(b)) {
      DecimalTextInjective(a, b);
    }
  }

  /** The value a TEXT column stores for a bound JSON value, or None where
      binding raises. True is stored as "1", False as "0". */
  function TextColumn(j: Json): (r: Option<SqlValue>)
    ensures r.Some? <==> Bind(j).Some?
    ensures r.Some? ==> !r.value.SqlInt?
    ensures j.Null? ==> r == Some(SqlNull)
    ensures j.Bool? ==> r == Some(SqlText(if j.b then "1" else "0"))
    ensures j.Num? && MinInt64 <= j.n <= MaxInt64 ==> r == Some(SqlText(DecimalText(j.n)))
    ensures j.Str? ==> r == Some(SqlText(j.s))
  {
    match Bind(j)
    case None => None
    case Some(v) => Some(TextAffinity(v))
  }

  /** One row of `receipts`; its three TEXT columns hold NULL or text. */
  datatype Receipt = Receipt(
    customerName: SqlValue,
    imagePath: SqlValue,
    sourceGroup: SqlValue,
    timestamp: Timestamp,
    forwarded: bool)

  /** One row of `queries`; its name and group columns are TEXT columns. */
  datatype QueryRecord = QueryRecord(
    id: Id,
    customerName: SqlValue,
    queryGroup: SqlValue,
    timestamp: Timestamp,
    matchedReceiptId: Option<Id>,
    status: string)

  /** Event metadata: the values the caller formats into the metadata text,
      in order (the text rendering itself is not modelled). */
  datatype Meta = Meta(values: seq<Json>)

  /** One row of `events`; its autoincrement id is its position in the log. */
  datatype Event = Event(action: string, metadata: Meta, timestamp: Timestamp)

  datatype Db = Db(receipts: map<Id, Receipt>, queries: seq<QueryRecord>, events: seq<Event>)

  /** The result of an insert that returns the new row's id. */
  datatype Inserted = Inserted(db: Db, id: Id)

  /** Two rows agree on everything except, possibly, `forwarded`. */
  predicate SameContent(a: Receipt, b: Receipt) {
    a.(forwarded := false) == b.(forwarded := false)
  }

  /** `db'` is reachable from `db` through this module's operations: no row
      disappears or changes content, `forwarded` never goes back to false,
      and both logs only grow at the end. */
  predicate Extends(db: Db, db': Db) {
    && db.receipts.Keys <= db'.receipts.Keys
    && (forall id | id in db.receipts ::
          SameContent(db.receipts[id], db'.receipts[id])
          && (db.receipts[id].forwarded ==> db'.receipts[id].forwarded))
    && db.queries <= db'.queries
    && db.events <= db'.events
  }

  /** `store_receipt`: insert one unforwarded row under `id` and return `id`.
      None where the insert raises: `id` already present (PRIMARY KEY) or a
      parameter sqlite3 cannot bind. Each value is stored as its TEXT column
      keeps it. */
  function StoreReceipt(db: Db, id: Id, customerName: Json, imagePath: Json, sourceGroup: Json,
                        now: Timestamp): (r: Option<Inserted>)
    ensures r.Some? <==> id !in db.receipts
                         && Bind(customerName).Some? && Bind(imagePath).Some? && Bind(sourceGroup).Some?
    ensures r.Some? ==> r.value.id == id
    ensures r.Some? ==> r.value.db.receipts.Keys == db.receipts.Keys + {id}
    ensures r.Some? ==> |r.value.db.receipts| == |db.receipts| + 1
    ensures r.Some? ==> r.value.db.receipts[id] == Receipt(TextColumn(customerName).value, TextColumn(imagePath).value,
                                                           TextColumn(sourceGroup).value, now, false)
    ensures r.Some? ==> Extends(db, r.value.db)
    ensures r.Some? ==> forall k | k in db.receipts :: r.value.db.receipts[k] == db.receipts[k]
    ensures r.Some? ==> r.value.db.queries == db.queries && r.value.db.events == db.events
  {
    if id in db.receipts then None
    else match (TextColumn(customerName), TextColumn(imagePath), TextColumn(sourceGroup))
      case (Some(n), Some(p), Some(g)) =>
        var row := Receipt(n, p, g, now, false);
        Some(Inserted(db.(receipts := db.receipts[id := row]), id))
      case _ => None
  }

  /** `get_unforwarded_receipts`: the rows whose `forwarded` flag is false,
      as an unordered collection (the query has no ORDER BY). */
  function Unforwarded(db: Db): (rows: map<Id, Receipt>)
    ensures forall id :: id in rows <==> id in db.receipts && !db.receipts[id].forwarded
    ensures forall id | id in rows :: rows[id] == db.receipts[id]
  {
    map id | id in db.receipts && !db.receipts[id].forwarded :: db.receipts[id]
  }

  /** `get_receipt_by_id`: the row with that id, or None. */
  function GetReceipt(db: Db, id: Id): (r: Option<Receipt>)
    ensures r.Some? <==> id in db.receipts
    ensures r.Some? ==> r.value == db.receipts[id]
  {
    if id in db.receipts then Some(db.receipts[id]) else None
  }

  /** `mark_receipt_forwarded`: sets `forwarded` on the row with that id and
      on no other; an unknown id updates nothing. */
  function MarkForwarded(db: Db, id: Id): (r: Db)
    ensures r.receipts.Keys == db.receipts.Keys
    ensures forall k | k in r.receipts :: r.receipts[k].forwarded == (db.receipts[k].forwarded || k == id)
    ensures Extends(db, r)
    ensures r.queries == db.queries && r.events == db.events
    ensures id !in db.receipts ==> r == db
  {
    if id in db.receipts then
      db.(receipts := db.receipts[id := db.receipts[id].(forwarded := true)])
    else db
  }

  /** `log_query`: append one query record under `qid` and return `qid`.
      None where the insert raises: `qid` already used or a parameter
      sqlite3 cannot bind. */
  function LogQuery(db: Db, qid: Id, customerName: Json, queryGroup: Json, now: Timestamp,
                    matched: Option<Id> := None, status: string := "created"): (r: Option<Inserted>)
    ensures r.Some? <==> (forall q <- db.queries :: q.id != qid)
                         && Bind(customerName).Some? && Bind(queryGroup).Some?
    ensures r.Some? ==> r.value.id == qid
    ensures r.Some? ==> r.value.db.queries
                          == db.queries + [QueryRecord(qid, TextColumn(customerName).value,
                                                       TextColumn(queryGroup).value, now, matched, status)]
    ensures r.Some? ==> r.value.db.receipts == db.receipts && r.value.db.events == db.events
    ensures r.Some? ==> Extends(db, r.value.db)
  {
    if exists q <- db.queries :: q.id == qid then None
    else match (TextColumn(customerName), TextColumn(queryGroup))
      case (Some(n), Some(g)) =>
        var q := QueryRecord(qid, n, g, now, matched, status);
        Some(Inserted(db.(queries := db.queries + [q]), qid))
      case _ => None
  }

  /** `log_event`: append one event; receipts and queries are untouched. */
  function LogEvent(db: Db, action: string, metadata: Meta, now: Timestamp): (r: Db)
    ensures |r.events| == |db.events| + 1
    ensures r.events[|db.events|] == Event(action, metadata, now)
    ensures r.receipts == db.receipts && r.queries == db.queries
    ensures Extends(db, r)
  {
    db.(events := db.events + [Event(action, metadata, now)])
  }

  /** Marking twice is marking once. */
  lemma MarkIdempotent(db: Db, id: Id)
    ensures MarkForwarded(MarkForwarded(db, id), id) == MarkForwarded(db, id)
  {
  }

  /** Reachability composes, so any run of operations keeps every row,
      never resets `forwarded` and only appends to the logs. */
  lemma ExtendsTransitive(a: Db, b: Db, c: Db)
    requires Extends(a, b) && Extends(b, c)
    ensures Extends(a, c)
  {
    forall id | id in a.receipts
      ensures SameContent(a.receipts[id], c.receipts[id])
    {
      assert id in b.receipts;
    }
  }

  /** `customer_name` is not a key: two receipts with the same name are
      both stored, under their two ids. */
  lemma DuplicateNamesAllowed(db: Db, id1: Id, id2: Id, name: Json, path: Json, group: Json,
                              now: Timestamp)
    requires id1 != id2 && id1 !in db.receipts && id2 !in db.receipts
    requires name.Str? && path.Str? && group.Str?
    ensures var first := StoreReceipt(db, id1, name, path, group, now);
            && first.Some?
            && var second := StoreReceipt(first.value.db, id2, name, path, group, now);
            && second.Some?
            && second.value.db.receipts[id1].customerName == second.value.db.receipts[id2].customerName
  {
  }
}

=== FILE: webhook.dfy ===
/** `whatsapp_webhook` end to end: the routing decision, then the calls
    inside the try block, in order, until one raises; a raise runs the
    exception handler (log `webhook_error`, notify the admin, answer 500).
    Which collaborator calls raise is an input: download, encryption, the
    database and the outbound queue are not modelled beyond their effect
    on the three tables and on the messages enqueued. */
module Webhook {
  import opened Wrappers
  import opened Json
  import opened Store
  import opened Matcher
  import opened Routing

  /** The collaborator calls inside the try block, and the two calls of the
      exception handler. */
  datatype Step =
    | NameFile        // secure_filename(fileName or "<group>_<time>.bin")
    | Download        // evolution_api.download_media(url, tmp_path)
    | SaveEncrypted   // save_and_encrypt_file(tmp_path, file_name)
    | StoreRow        // database.store_receipt(...)
    | LogSaved        // log_event("receipt_saved", ...)
    | EnqueueReceipt  // enqueue_document of the new receipt
    | LogEnqueued     // log_event("receipt_enqueued_forward", ...)
    | MatchCall       // utils.find_match_in_db(candidate_name)
    | FetchRow        // SELECT image_path FROM receipts WHERE id = ?
    | EnqueueMatch    // enqueue_document of the matched receipt
    | MarkRow         // database.mark_receipt_forwarded(match_id)
    | LogForwarded    // log_event("match_forwarded", ...)
    | HandlerLog      // log_event("webhook_error", str(exc))
    | HandlerNotify   // enqueue_message to the admin

  /** A message put on the outbound queue. */
  datatype Outbound = Document(path: SqlValue, caption: Meta) | AdminMessage(text: Meta)

  /** Everything the handler draws from outside the request. */
  datatype Env = Env(
    raises: set<Step>,     // the calls that raise during this request
    errorText: string,     // str(exc) of the exception raised
    freshId: Id,           // uuid4().hex drawn by store_receipt
    savedPath: string,     // the path save_and_encrypt_file returns
    now: Timestamp,        // utcnow() of every row written
    pool: seq<Candidate>,  // the rows find_match_in_db fetches, in fetch order
    score: Scorer)         // fuzz.token_sort_ratio

  /** What one call does to the tables or the queue when it does not raise. */
  datatype Change =
    | Check(ok: bool)      // no state change; raises by itself when not ok
    | Insert(id: Id, name: Json, path: Json, group: Json)
    | Mark(id: Id)
    | Log(action: string, metadata: Meta)
    | Send(message: Outbound)

  datatype Effect = Effect(step: Step, change: Change)

  datatype State = State(db: Db, sent: seq<Outbound>)

  /** The HTTP status code and the JSON `status` field (None for the
      framework's own error page). */
  datatype Reply = Reply(code: nat, status: Option<string>)

  datatype Outcome = Outcome(reply: Reply, db: Db, sent: seq<Outbound>)

  /** The last event logged is the handler's `webhook_error`. */
  predicate EndsWithError(db: Db) {
    |db.events| > 0 && db.events[|db.events| - 1].action == "webhook_error"
  }

  /** Receipts that `db'` has forwarded and `db` had not. */
  ghost predicate NewlyForwarded(db: Db, db': Db, id: Id) {
    id in db.receipts && !db.receipts[id].forwarded && id in db'.receipts && db'.receipts[id].forwarded
  }

  /** One call that did not raise by the oracle; None when it raises by
      itself (a bad file name, a duplicate id, a parameter sqlite3 cannot bind). */
  function Apply(c: Change, st: State, now: Timestamp): (r: Option<State>)
    ensures r.Some? ==> Extends(st.db, r.value.db) && st.sent <= r.value.sent
    ensures r.Some? ==> forall id :: NewlyForwarded(st.db, r.value.db, id) ==> c == Mark(id)
    ensures r.Some? ==> forall id | id in r.value.db.receipts && id !in st.db.receipts ::
                          c.Insert? && c.id == id && !r.value.db.receipts[id].forwarded
    ensures c.Check? ==> (r.Some? <==> c.ok) && (r.Some? ==> r.value == st)
    ensures c.Insert? ==> (r.Some? <==> StoreReceipt(st.db, c.id, c.name, c.path, c.group, now).Some?)
  {
    match c
    case Check(ok) => if ok then Some(st) else None
    case Insert(id, name, path, group) =>
      var ins := StoreReceipt(st.db, id, name, path, group, now);
      if ins.Some? then Some(st.(db := ins.value.db)) else None
    case Mark(id) => Some(st.(db := MarkForwarded(st.db, id)))
    case Log(action, metadata) => Some(st.(db := LogEvent(st.db, action, metadata, now)))
    case Send(m) => Some(st.(sent := st.sent + [m]))
  }

  /** The `except Exception` block: log `webhook_error`, notify the admin,
      answer 500. If one of those calls raises in turn, the framework
      answers 500 itself. */
  function Recover(st: State, env: Env): (o: Outcome)
    ensures o.reply.code == 500
    ensures Extends(st.db, o.db) && o.db.receipts == st.db.receipts && st.sent <= o.sent
    ensures HandlerLog !in env.raises ==>
              |o.db.events| > 0 && o.db.events[|o.db.events| - 1] == Event("webhook_error", Meta([Str(env.errorText)]), env.now)
    ensures o.reply.status == Some("error") <==> HandlerLog !in env.raises && HandlerNotify !in env.raises
    ensures o.reply.status == Some("error") ==> o.sent == st.sent + [AdminMessage(Meta([Str(env.errorText)]))]
    ensures o.sent == st.sent || o.sent == st.sent + [AdminMessage(Meta([Str(env.errorText)]))]
    ensures HandlerLog in env.raises ==> o.db == st.db
    ensures HandlerLog !in env.raises ==>
              (o.db.queries == st.db.queries
               && o.db.events == st.db.events + [Event("webhook_error", Meta([Str(env.errorText)]), env.now)])
  {
    if HandlerLog in env.raises then Outcome(Reply(500, None), st.db, st.sent)
    else
      var db := LogEvent(st.db, "webhook_error", Meta([Str(env.errorText)]), env.now);
      if HandlerNotify in env.raises then Outcome(Reply(500, None), db, st.sent)
      else Outcome(Reply(500, Some("error")), db, st.sent + [AdminMessage(Meta([Str(env.errorText)]))])
  }

  /** Every call of `plan`, run in order from `st`, completes: none is
      made to raise by the oracle, and none raises by itself. */
  ghost predicate RanClean(plan: seq<Effect>, st: State, env: Env)
    decreases |plan|
  {
    plan == []
    || (&& plan[0].step !in env.raises
        && Apply(plan[0].change, st, env.now).Some?
        && RanClean(plan[1..], Apply(plan[0].change, st, env.now).value, env))
  }

  /** The try block: run the calls of `plan` in order; the first one that
      raises sends control to the exception handler, and a plan that runs
      to its end answers 200 ok. */
  function Run(plan: seq<Effect>, st: State, env: Env): (o: Outcome)
    ensures Extends(st.db, o.db) && st.sent <= o.sent
    ensures o.reply == Reply(200, Some("ok")) || o.reply.code == 500
    ensures o.reply.code == 200 ==> forall e <- plan :: e.step !in env.raises
    ensures o.reply.code == 200 ==> RanClean(plan, st, env)
    ensures RanClean(plan, st, env) ==> o.reply == Reply(200, Some("ok"))
    ensures o.reply.code == 500 && HandlerLog !in env.raises ==>
              EndsWithError(o.db)
    decreases |plan|
  {
    if plan == [] then Outcome(Reply(200, Some("ok")), st.db, st.sent)
    else if plan[0].step in env.raises then Recover(st, env)
    else
      match Apply(plan[0].change, st, env.now)
      case None => Recover(st, env)
      case Some(next) =>
        var o := Run(plan[1..], next, env);
        assert forall e <- plan :: e == plan[0] || e in plan[1..];
        ExtendsTransitive(st.db, next.db, o.db);
        o
  }

  /** The try block forwards only the ids its plan marks. */
  lemma {:induction false} RunMarksOnlyPlanned(plan: seq<Effect>, st: State, env: Env, id: Id)
    requires NewlyForwarded(st.db, Run(plan, st, env).db, id)
    ensures exists e <- plan :: e.change == Mark(id)
    decreases |plan|
  {
    if plan != [] && plan[0].step !in env.raises {
      var next := Apply(plan[0].change, st, env.now);
      if next.Some? {
        var o := Run(plan[1..], next.value, env);
        if NewlyForwarded(next.value.db, o.db, id) {
          RunMarksOnlyPlanned(plan[1..], next.value, env, id);
          var e :| e in plan[1..] && e.change == Mark(id);
          assert e in plan;
        } else {
          assert NewlyForwarded(st.db, next.value.db, id);
          assert plan[0] in plan;
        }
      }
    }
  }

  /** The try block adds only the rows its plan inserts. */
  lemma {:induction false} RunInsertsOnlyPlanned(plan: seq<Effect>, st: State, env: Env, id: Id)
    requires id in Run(plan, st, env).db.receipts && id !in st.db.receipts
    ensures exists e <- plan :: e.change.Insert? && e.change.id == id
    decreases |plan|
  {
    if plan != [] && plan[0].step !in env.raises {
      var next := Apply(plan[0].change, st, env.now);
      if next.Some? {
        if id in next.value.db.receipts {
          assert plan[0] in plan;
        } else {
          RunInsertsOnlyPlanned(plan[1..], next.value, env, id);
          var e :| e in plan[1..] && e.change.Insert? && e.change.id == id;
          assert e in plan;
        }
      }
    }
  }

  /** The try block enqueues only the messages its plan sends, besides the
      handler's note to the admin. */
  lemma {:induction false} RunSendsOnlyPlanned(plan: seq<Effect>, st: State, env: Env, msg: Outbound)
    requires msg in Run(plan, st, env).sent
    ensures msg in st.sent || msg.AdminMessage? || exists e <- plan :: e.change == Send(msg)
    decreases |plan|
  {
    if plan != [] && plan[0].step !in env.raises {
      var next := Apply(plan[0].change, st, env.now);
      if next.Some? {
        RunSendsOnlyPlanned(plan[1..], next.value, env, msg);
        if msg in next.value.sent && msg !in st.sent {
          assert plan[0] in plan;
        } else if exists e <- plan[1..] :: e.change == Send(msg) {
          var e :| e in plan[1..] && e.change == Send(msg);
          assert e in plan;
        }
      }
    }
  }

  /** `secure_filename(fileName or ...)` raises TypeError exactly when the
      media dict's `fileName` is truthy but not a string. */
  predicate FileNameOk(fileName: Json) {
    !Truthy(fileName) || fileName.Str?
  }

  /** The calls of the store branch (main.py lines 116-130). */
  function StorePlan(name: Json, group: Json, fileName: Json, env: Env): (plan: seq<Effect>)
    ensures forall e <- plan :: !e.change.Mark? && (e.change.Insert? ==> e.change.id == env.freshId)
  {
    var checks := [ Effect(NameFile, Check(FileNameOk(fileName))), Effect(Download, Check(true)) ];
    var rest := SavePlan(name, group, env) + AnnouncePlan(name, group, env);
    assert forall e <- rest :: e in SavePlan(name, group, env) || e in AnnouncePlan(name, group, env);
    assert forall e <- checks + rest :: e in checks || e in rest;
    checks + rest
  }

  /** The save and insert calls of the store branch. */
  function SavePlan(name: Json, group: Json, env: Env): (plan: seq<Effect>)
    ensures forall e <- plan :: !e.change.Mark? && (e.change.Insert? ==> e.change.id == env.freshId)
  {
    [ Effect(SaveEncrypted, Check(true)),
      Effect(StoreRow, Insert(env.freshId, Label(name), Str(env.savedPath), group)) ]
  }

  /** The calls after the insert: log it, enqueue the image, log that. */
  function AnnouncePlan(name: Json, group: Json, env: Env): (plan: seq<Effect>)
    ensures forall e <- plan :: e.change.Log? || e.change.Send?
  {
    var id := env.freshId;
    [ Effect(LogSaved, Log("receipt_saved", Meta([Str(id), group]))),
      Effect(EnqueueReceipt, Send(Document(SqlText(env.savedPath), Meta([name, group, Str(id)])))),
      Effect(LogEnqueued, Log("receipt_enqueued_forward", Meta([Str(id)]))) ]
  }

  /** The forwarding calls for a matched id whose row was fetched. */
  function ForwardPlan(name: Json, id: Id, m: Match, db: Db): (plan: seq<Effect>)
    requires id in db.receipts
    ensures forall e <- plan :: !e.change.Insert? && (e.change.Mark? ==> e.change.id == id)
    ensures forall e <- plan :: e.change.Send? ==>
              e.change.message.Document? && e.change.message.path == db.receipts[id].imagePath
    ensures exists e <- plan :: e.change == Mark(id)
  {
    [ Effect(EnqueueMatch, Send(Document(db.receipts[id].imagePath, Meta([Str(id), name, Num(m.score)])))),
      Effect(MarkRow, Mark(id)),
      Effect(LogForwarded, Log("match_forwarded", Meta([Str(id), name, Num(m.score)]))) ]
  }

  /** The calls of the query branch (main.py lines 136-149): match, and only
      for a truthy match id whose row exists, forward it and mark it. */
  function QueryPlan(name: Json, db: Db, env: Env): (plan: seq<Effect>)
    ensures forall e <- plan :: e.change.Mark? ==>
              FindMatch(name, env.pool, env.score).id == Some(e.change.id) && e.change.id != ""
              && e.change.id in db.receipts
    ensures forall e <- plan :: !e.change.Insert?
    ensures forall e <- plan :: e.change.Send? ==>
              var m := FindMatch(name, env.pool, env.score);
              && m.id.Some? && m.id.value in db.receipts
              && e.change.message.Document? && e.change.message.path == db.receipts[m.id.value].imagePath
  {
    var m := FindMatch(name, env.pool, env.score);
    [Effect(MatchCall, Check(true))]
    + if m.id.Some? && m.id.value != "" then
        [Effect(FetchRow, Check(true))]
        + if m.id.value in db.receipts then ForwardPlan(name, m.id.value, m, db) else []
      else []
  }

  /** The store branch: only the fresh id can appear, and nothing is forwarded. */
  function RunStore(name: Json, group: Json, fileName: Json, env: Env, db: Db): (o: Outcome)
    ensures Extends(db, o.db)
    ensures o.reply.code in {200, 500}
    ensures forall id :: !NewlyForwarded(db, o.db, id)
    ensures forall id | id in o.db.receipts && id !in db.receipts :: id == env.freshId
    ensures o.reply.code == 500 && HandlerLog !in env.raises ==>
              EndsWithError(o.db)
    ensures o.reply.code == 200 ==>
              && FileNameOk(fileName) && env.freshId !in db.receipts
              && Bind(Label(name)).Some? && Bind(group).Some?
  {
    var plan := StorePlan(name, group, fileName, env);
    var st := State(db, []);
    var o := Run(plan, st, env);
    forall id | NewlyForwarded(db, o.db, id) ensures false {
      RunMarksOnlyPlanned(plan, st, env, id);
    }
    forall id | id in o.db.receipts && id !in db.receipts ensures id == env.freshId {
      RunInsertsOnlyPlanned(plan, st, env, id);
    }
    StoreRanClean(name, group, fileName, env, db);
    o
  }

  /** A store branch whose calls all complete had a valid file name, a
      fresh id and a label and group that bind. */
  lemma StoreRanClean(name: Json, group: Json, fileName: Json, env: Env, db: Db)
    ensures RanClean(StorePlan(name, group, fileName, env), State(db, []), env) ==>
              && FileNameOk(fileName) && env.freshId !in db.receipts
              && Bind(Label(name)).Some? && Bind(group).Some?
  {
    var plan := StorePlan(name, group, fileName, env);
    var st := State(db, []);
    if RanClean(plan, st, env) {
      assert plan[0].change == Check(FileNameOk(fileName));
      assert plan[1..][0].change == Check(true) && plan[1..][1..][0].change == Check(true);
      assert RanClean(plan[1..], st, env);
      assert RanClean(plan[1..][1..], st, env);
      var rest := plan[1..][1..][1..];
      assert RanClean(rest, st, env);
      assert rest[0].change == Insert(env.freshId, Label(name), Str(env.savedPath), group);
    }
  }

  /** The query branch: no row appears, only the matched id can be
      forwarded, and the only image enqueued is that of the matched row,
      which was unforwarded. The rows `find_match_in_db` fetches are those
      of `db`. */
  function RunQuery(name: Json, env: Env, db: Db): (o: Outcome)
    requires IsPoolOf(env.pool, db)
    ensures Extends(db, o.db)
    ensures o.reply.code in {200, 500}
    ensures forall id :: NewlyForwarded(db, o.db, id) ==>
              FindMatch(name, env.pool, env.score).id == Some(id) && id != ""
    ensures o.db.receipts.Keys == db.receipts.Keys
    ensures o.reply.code == 500 && HandlerLog !in env.raises ==>
              EndsWithError(o.db)
    ensures forall msg <- o.sent :: msg.Document? ==> ForwardsMatch(name, env, db, msg)
  {
    var plan := QueryPlan(name, db, env);
    var st := State(db, []);
    var o := Run(plan, st, env);
    forall msg <- o.sent | msg.Document? ensures ForwardsMatch(name, env, db, msg) {
      RunSendsOnlyPlanned(plan, st, env, msg);
      MatchIsUnforwarded(name, env.pool, env.score, db);
    }
    forall id | NewlyForwarded(db, o.db, id)
      ensures FindMatch(name, env.pool, env.score).id == Some(id) && id != ""
    {
      RunMarksOnlyPlanned(plan, st, env, id);
    }
    forall id | id in o.db.receipts && id !in db.receipts ensures false {
      RunInsertsOnlyPlanned(plan, st, env, id);
    }
    o
  }

  /** `msg` enqueues the image of the best match for `name`, a receipt
      that `db` holds unforwarded. */
  ghost predicate ForwardsMatch(name: Json, env: Env, db: Db, msg: Outbound) {
    var m := FindMatch(name, env.pool, env.score);
    && m.id.Some? && m.id.value in db.receipts && !db.receipts[m.id.value].forwarded
    && msg.Document? && msg.path == db.receipts[m.id.value].imagePath
  }

  /** The effects of one decision on the tables `db`. */
  function Execute(d: Decision, env: Env, db: Db): (o: Outcome)
    requires IsPoolOf(env.pool, db)
    ensures Extends(db, o.db)
    ensures o.reply.code == 401 <==> d.Unauthorized?
    ensures d.Ignored? ==> o == Outcome(Reply(200, Some("ignored")), db, [])
    ensures d.Uncaught? ==> o == Outcome(Reply(500, None), db, [])
    ensures d.Unauthorized? ==> o == Outcome(Reply(401, Some("unauthorized")), db, [])
    ensures d.NoOp? || d.MediaWithoutUrl? ==> o == Outcome(Reply(200, Some("ok")), db, [])
    ensures d.Query? ==> forall msg <- o.sent :: msg.Document? ==> ForwardsMatch(d.name, env, db, msg)
    ensures forall id :: NewlyForwarded(db, o.db, id) ==>
              d.Query? && FindMatch(d.name, env.pool, env.score).id == Some(id) && id != ""
    ensures forall id | id in o.db.receipts && id !in db.receipts :: d.StoreMedia? && id == env.freshId
    ensures o.reply.code == 500 && HandlerLog !in env.raises && !d.Uncaught? ==>
              EndsWithError(o.db)
  {
    match d
    case Unauthorized => Outcome(Reply(401, Some("unauthorized")), db, [])
    case Uncaught => Outcome(Reply(500, None), db, [])
    case Ignored => Outcome(Reply(200, Some("ignored")), db, [])
    case StoreMedia(name, _, group, fileName) => RunStore(name, group, fileName, env, db)
    case MediaWithoutUrl => Outcome(Reply(200, Some("ok")), db, [])
    case Query(name) => RunQuery(name, env, db)
    case NoOp => Outcome(Reply(200, Some("ok")), db, [])
  }

  /** `whatsapp_webhook` for one request against the tables `db`. */
  function Handle(cfg: Settings, req: Request, env: Env, db: Db): (o: Outcome)
    requires IsPoolOf(env.pool, db)
    ensures Extends(db, o.db)
    ensures o.reply.code == 401 <==> Rejects(cfg.secret, req.header)
    ensures Rejects(cfg.secret, req.header) ==> o.db == db && o.sent == []
    ensures forall id :: NewlyForwarded(db, o.db, id) ==>
              Route(cfg, req).Query? && FindMatch(Route(cfg, req).name, env.pool, env.score).id == Some(id)
    ensures forall id | id in o.db.receipts && id !in db.receipts ::
              Route(cfg, req).StoreMedia? && id == env.freshId
    ensures Route(cfg, req).Query? ==>
              forall msg <- o.sent :: msg.Document? ==> ForwardsMatch(Route(cfg, req).name, env, db, msg)
  {
    Execute(Route(cfg, req), env, db)
  }

  /** One call of the try block that neither the oracle nor its own
      arguments make raise hands its state to the rest of the block. */
  lemma RunStep(plan: seq<Effect>, st: State, env: Env, next: State)
    requires plan != [] && plan[0].step !in env.raises
    requires Apply(plan[0].change, st, env.now) == Some(next)
    ensures Run(plan, st, env) == Run(plan[1..], next, env)
  {
  }

  /** None of the calls of the store branch raises. */
  predicate StoreCallsSucceed(env: Env) {
    && NameFile !in env.raises && Download !in env.raises && SaveEncrypted !in env.raises
    && StoreRow !in env.raises && LogSaved !in env.raises && EnqueueReceipt !in env.raises
    && LogEnqueued !in env.raises
  }

  /** None of the calls of the query branch raises. */
  predicate QueryCallsSucceed(env: Env) {
    && MatchCall !in env.raises && FetchRow !in env.raises && EnqueueMatch !in env.raises
    && MarkRow !in env.raises && LogForwarded !in env.raises
  }

  /** The announcing calls, when none raises, log `receipt_saved`, enqueue
      the image and log `receipt_enqueued_forward`. */
  lemma {:induction false} AnnounceRuns(name: Json, group: Json, env: Env, db: Db)
    requires StoreCallsSucceed(env)
    ensures var id := env.freshId;
            Run(AnnouncePlan(name, group, env), State(db, []), env)
              == Outcome(Reply(200, Some("ok")),
                         db.(events := db.events + [Event("receipt_saved", Meta([Str(id), group]), env.now),
                                                    Event("receipt_enqueued_forward", Meta([Str(id)]), env.now)]),
                         [Document(SqlText(env.savedPath), Meta([name, group, Str(id)]))])
  {
    var id := env.freshId;
    var plan := AnnouncePlan(name, group, env);
    var doc := Document(SqlText(env.savedPath), Meta([name, group, Str(id)]));
    var s0 := State(db, []);
    var s1 := s0.(db := LogEvent(db, "receipt_saved", Meta([Str(id), group]), env.now));
    var s2 := s1.(sent := [doc]);
    var s3 := s2.(db := LogEvent(s2.db, "receipt_enqueued_forward", Meta([Str(id)]), env.now));
    assert plan[1..][1..] == plan[2..] && plan[2..][1..] == [];
    assert s1.sent + [doc] == s2.sent;
    RunStep(plan, s0, env, s1);
    RunStep(plan[1..], s1, env, s2);
    RunStep(plan[2..], s2, env, s3);
  }

  /** The file-name and download calls, when neither raises, change nothing. */
  lemma {:induction false} StoreChecksRun(name: Json, group: Json, fileName: Json, env: Env, st: State)
    requires StoreCallsSucceed(env) && FileNameOk(fileName)
    ensures var plan := StorePlan(name, group, fileName, env);
            Run(plan, st, env) == Run(plan[2..], st, env)
  {
    var plan := StorePlan(name, group, fileName, env);
    assert plan[1..][1..] == plan[2..];
    RunStep(plan, st, env, st);
    RunStep(plan[1..], st, env, st);
  }

  /** The insert of the store branch, for a fresh id and bindable values,
      adds the one row, stored as its TEXT columns keep it. */
  lemma InsertApplies(name: Json, group: Json, env: Env, db: Db)
    requires env.freshId !in db.receipts
    requires Bind(Label(name)).Some? && Bind(group).Some?
    ensures var row := Receipt(TextColumn(Label(name)).value, SqlText(env.savedPath), TextColumn(group).value, env.now, false);
            Apply(Insert(env.freshId, Label(name), Str(env.savedPath), group), State(db, []), env.now)
              == Some(State(db.(receipts := db.receipts[env.freshId := row]), []))
  {
    assert TextColumn(Str(env.savedPath)) == Some(SqlText(env.savedPath));
  }

  /** The calls before the announcement, when none raises, insert the one
      new row and hand over to the announcing calls. */
  lemma {:induction false} StorePrefixRuns(name: Json, group: Json, fileName: Json, env: Env, db: Db)
    requires StoreCallsSucceed(env) && FileNameOk(fileName)
    requires env.freshId !in db.receipts
    requires Bind(Label(name)).Some? && Bind(group).Some?
    ensures var row := Receipt(TextColumn(Label(name)).value, SqlText(env.savedPath), TextColumn(group).value, env.now, false);
            Run(StorePlan(name, group, fileName, env), State(db, []), env)
              == Run(AnnouncePlan(name, group, env), State(db.(receipts := db.receipts[env.freshId := row]), []), env)
  {
    var plan := StorePlan(name, group, fileName, env);
    var s0 := State(db, []);
    StoreChecksRun(name, group, fileName, env, s0);
    assert plan[2..] == SavePlan(name, group, env) + AnnouncePlan(name, group, env);
    SaveRuns(name, group, env, db);
  }

  /** Saving and inserting, when neither raises, add the one new row and
      hand over to the announcing calls. */
  lemma {:induction false} SaveRuns(name: Json, group: Json, env: Env, db: Db)
    requires StoreCallsSucceed(env)
    requires env.freshId !in db.receipts
    requires Bind(Label(name)).Some? && Bind(group).Some?
    ensures var row := Receipt(TextColumn(Label(name)).value, SqlText(env.savedPath), TextColumn(group).value, env.now, false);
            var announce := AnnouncePlan(name, group, env);
            Run(SavePlan(name, group, env) + announce, State(db, []), env)
              == Run(announce, State(db.(receipts := db.receipts[env.freshId := row]), []), env)
  {
    var row := Receipt(TextColumn(Label(name)).value, SqlText(env.savedPath), TextColumn(group).value, env.now, false);
    var plan := SavePlan(name, group, env) + AnnouncePlan(name, group, env);
    var s0 := State(db, []);
    assert plan[1..][1..] == AnnouncePlan(name, group, env);
    RunStep(plan, s0, env, s0);
    InsertApplies(name, group, env, db);
    RunStep(plan[1..], s0, env, State(db.(receipts := db.receipts[env.freshId := row]), []));
  }

  /** A media message whose calls all succeed stores exactly one new,
      unforwarded receipt labelled with the candidate name (or "unknown"),
      logs `receipt_saved` then `receipt_enqueued_forward`, enqueues the
      image once and answers 200. */
  lemma {:induction false} StoreSucceeds(name: Json, group: Json, fileName: Json, env: Env, db: Db)
    requires StoreCallsSucceed(env) && FileNameOk(fileName)
    requires env.freshId !in db.receipts
    requires Bind(Label(name)).Some? && Bind(group).Some?
    ensures var o := RunStore(name, group, fileName, env, db);
            var id := env.freshId;
            && o.reply == Reply(200, Some("ok"))
            && o.db.receipts == db.receipts[id := Receipt(TextColumn(Label(name)).value, SqlText(env.savedPath),
                                                          TextColumn(group).value, env.now, false)]
            && o.db.queries == db.queries
            && o.db.events == db.events + [Event("receipt_saved", Meta([Str(id), group]), env.now),
                                           Event("receipt_enqueued_forward", Meta([Str(id)]), env.now)]
            && o.sent == [Document(SqlText(env.savedPath), Meta([name, group, Str(id)]))]
  {
    var row := Receipt(TextColumn(Label(name)).value, SqlText(env.savedPath), TextColumn(group).value, env.now, false);
    StorePrefixRuns(name, group, fileName, env, db);
    AnnounceRuns(name, group, env, db.(receipts := db.receipts[env.freshId := row]));
  }

  /** The forwarding calls, when none raises, enqueue the image, mark the
      row and log `match_forwarded`. */
  lemma {:induction false} ForwardRuns(name: Json, id: Id, m: Match, env: Env, db: Db)
    requires QueryCallsSucceed(env) && id in db.receipts
    ensures var meta := Meta([Str(id), name, Num(m.score)]);
            Run(ForwardPlan(name, id, m, db), State(db, []), env)
              == Outcome(Reply(200, Some("ok")),
                         LogEvent(MarkForwarded(db, id), "match_forwarded", meta, env.now),
                         [Document(db.receipts[id].imagePath, meta)])
  {
    var fwd := ForwardPlan(name, id, m, db);
    var meta := Meta([Str(id), name, Num(m.score)]);
    var s0 := State(db, []);
    var s3 := s0.(sent := [Document(db.receipts[id].imagePath, meta)]);
    var s4 := s3.(db := MarkForwarded(db, id));
    var s5 := s4.(db := LogEvent(s4.db, "match_forwarded", meta, env.now));
    assert fwd[1..][1..] == fwd[2..] && fwd[2..][1..] == [];
    assert fwd[0].change == Send(Document(db.receipts[id].imagePath, meta));
    assert s0.sent + [Document(db.receipts[id].imagePath, meta)] == s3.sent;
    RunStep(fwd, s0, env, s3);
    RunStep(fwd[1..], s3, env, s4);
    RunStep(fwd[2..], s4, env, s5);
  }

  /** A query whose best match is a non-empty id forwards that receipt's
      image once, marks exactly that row forwarded, logs `match_forwarded`
      and answers 200. */
  lemma {:induction false} QueryForwards(name: Json, env: Env, db: Db)
    requires QueryCallsSucceed(env) && IsPoolOf(env.pool, db)
    requires var m := FindMatch(name, env.pool, env.score); m.id.Some? && m.id.value != ""
    ensures var m := FindMatch(name, env.pool, env.score);
            var id := m.id.value;
            var meta := Meta([Str(id), name, Num(m.score)]);
            var o := RunQuery(name, env, db);
            && id in db.receipts && !db.receipts[id].forwarded
            && o.reply == Reply(200, Some("ok"))
            && o.db == LogEvent(MarkForwarded(db, id), "match_forwarded", meta, env.now)
            && o.sent == [Document(db.receipts[id].imagePath, meta)]
  {
    var m := FindMatch(name, env.pool, env.score);
    var id := m.id.value;
    MatchIsUnforwarded(name, env.pool, env.score, db);
    var plan := QueryPlan(name, db, env);
    var fwd := ForwardPlan(name, id, m, db);
    var s0 := State(db, []);
    assert plan == [Effect(MatchCall, Check(true)), Effect(FetchRow, Check(true))] + fwd;
    assert plan[1..][1..] == fwd;
    RunStep(plan, s0, env, s0);
    RunStep(plan[1..], s0, env, s0);
    ForwardRuns(name, id, m, env, db);
  }

  /** A query with no positive score changes no table and enqueues nothing. */
  lemma {:induction false} QueryWithoutMatch(name: Json, env: Env, db: Db)
    requires IsPoolOf(env.pool, db) && MatchCall !in env.raises
    requires FindMatch(name, env.pool, env.score).id.None?
    ensures RunQuery(name, env, db) == Outcome(Reply(200, Some("ok")), db, [])
  {
    var plan := QueryPlan(name, db, env);
    assert plan == [Effect(MatchCall, Check(true))];
    RunStep(plan, State(db, []), env, State(db, []));
    assert plan[1..] == [];
  }

  /** Of requests handled one after another, a receipt is forwarded by at
      most one query: once a query has forwarded it, it is no longer among
      the unforwarded rows, and no later match over those rows, whatever
      the query and similarity, can return it. */
  lemma ForwardedOnce(name: Json, env: Env, db: Db, query': Json, score': Scorer)
    requires QueryCallsSucceed(env) && IsPoolOf(env.pool, db)
    requires var m := FindMatch(name, env.pool, env.score); m.id.Some? && m.id.value != ""
    ensures var id := FindMatch(name, env.pool, env.score).id.value;
            var db' := RunQuery(name, env, db).db;
            && id !in Unforwarded(db')
            && forall pool' | IsPoolOf(pool', db') :: FindMatch(query', pool', score').id != Some(id)
  {
    var id := FindMatch(name, env.pool, env.score).id.value;
    var db' := RunQuery(name, env, db).db;
    QueryForwards(name, env, db);
    assert db'.receipts[id].forwarded;
    forall pool' | IsPoolOf(pool', db')
      ensures FindMatch(query', pool', score').id != Some(id)
    {
      MatchIsUnforwarded(query', pool', score', db');
    }
  }

  /** A failed download aborts the store branch before any row is written:
      the answer is 500 and, when the handler's own log call succeeds, the
      last event is `webhook_error`. */
  lemma {:induction false} DownloadFailureStoresNothing(name: Json, group: Json, fileName: Json, env: Env, db: Db)
    requires NameFile !in env.raises && FileNameOk(fileName) && Download in env.raises
    ensures var o := RunStore(name, group, fileName, env, db);
            && o.reply.code == 500
            && o.db.receipts == db.receipts
            && o.sent <= [AdminMessage(Meta([Str(env.errorText)]))]
            && (HandlerLog !in env.raises ==>
                  o.db.events == db.events + [Event("webhook_error", Meta([Str(env.errorText)]), env.now)])
  {
    var plan := StorePlan(name, group, fileName, env);
    var s0 := State(db, []);
    RunStep(plan, s0, env, s0);
    assert plan[1..][0].step == Download;
    assert Run(plan[1..], s0, env) == Recover(s0, env);
  }

  /** A truthy `fileName` that is not a string makes `secure_filename`
      raise before the download: the answer is 500, no row is written, and
      when the handler's own log call succeeds the last event is
      `webhook_error`. */
  lemma {:induction false} BadFileNameStoresNothing(name: Json, group: Json, fileName: Json, env: Env, db: Db)
    requires NameFile !in env.raises && !FileNameOk(fileName)
    ensures var o := RunStore(name, group, fileName, env, db);
            && o.reply.code == 500
            && o.db.receipts == db.receipts
            && o.sent <= [AdminMessage(Meta([Str(env.errorText)]))]
            && (HandlerLog !in env.raises ==>
                  o.db.events == db.events + [Event("webhook_error", Meta([Str(env.errorText)]), env.now)])
  {
    var plan := StorePlan(name, group, fileName, env);
    assert plan[0].change == Check(false);
  }

  /** A failed match call aborts the query branch before anything is
      forwarded: the answer is 500, no row changes, and when the handler's
      own log call succeeds the last event is `webhook_error`. */
  lemma {:induction false} MatchFailureForwardsNothing(name: Json, env: Env, db: Db)
    requires IsPoolOf(env.pool, db) && MatchCall in env.raises
    ensures var o := RunQuery(name, env, db);
            && o.reply.code == 500
            && o.db.receipts == db.receipts
            && o.sent <= [AdminMessage(Meta([Str(env.errorText)]))]
            && (HandlerLog !in env.raises ==>
                  o.db.events == db.events + [Event("webhook_error", Meta([Str(env.errorText)]), env.now)])
  {
    var plan := QueryPlan(name, db, env);
    assert plan[0].step == MatchCall;
  }
}

=== FILE: wrappers.dfy ===
/** The optional value used wherever Python returns a value or None. */
module Wrappers {

  datatype Option<+T> = None | Some(value: T)
}
